=== FILE: README.md ===
# DeepSeek/OpenHands SDK helpers — a verified model

This project models the small amount of decision logic in the Python SDK that
wraps OpenHands and Ollama:

- **Code-fence extraction** (`OpenHandsClient._extract_code_from_state`): the agent's
  event history is scanned newest first for content holding the triple-backtick
  fence at two distinct positions; the text from the first fence to the end of the
  last one is split into lines, the opening line is dropped, the last line is dropped
  when it is exactly the fence, and the rest is joined again. A slice with no
  newline makes `lines[-1]` raise `IndexError`, which ends the scan; the model
  returns that as an error value.
- **The DeepSeek command-line tool** (`deepseek_cli.py`): the fixed-priority choice of
  the one action the flags trigger; what `review_file`, `explain_file`, `fix_file`
  and `generate_code` send to the model, including the empty answer for a missing
  file and the conditional error line of `fix_file`; and the interactive loop as a
  pure transition function over the conversation history, with slash-command
  parsing.
- **Provider configuration** (`config.py`): the four-entry `LLM_CONFIG` table and
  `get_llm_config`, with environment variables passed in as values.

The Ollama model is a function value `Llm` that, given the model name and a
request (one prompt or the whole conversation), either answers or fails; failure
stands for any exception raised by the call, a Ctrl-C during streaming included.
Files are a `map` from path to contents; a path not in the map is a missing file.
The interactive loop is written over any turn function, so that its lemmas about
stopping are proved once for every turn function that says goodbye exactly on a
quit command; `Run` uses `Step` with the session's model, files and LLM.

Modules: `Results` (Option/Result), `Text` (the Python `str` operations used:
`find`, `rfind`, `split`, `join`, `strip`, `split(maxsplit=1)`, `lower`),
`CodeFence`, `DeepSeekCli`, `Interactive`, `Config`.

## Model

| member | source | states |
|---|---|---|
| CodeFence.ExtractCodeFromState | sdk/openhands_client.py:256-274 | the result is "" or the outcome of extracting from one of the history's events |
| CodeFence.ExtractUsesLatestQualifying | sdk/openhands_client.py:259-273 | events are examined newest first: the latest event that qualifies decides the result, whatever older events hold |
| CodeFence.ExtractWithoutQualifying | sdk/openhands_client.py:259-274 | when no event qualifies, the empty history included, the result is "" |
| CodeFence.FromEvent | sdk/openhands_client.py:260-265 | an event is used exactly when it has content and the fence occurs in it at two distinct positions; otherwise it is skipped |
| CodeFence.ExtractedLiesBetweenFences | sdk/openhands_client.py:263-273 | the extracted code starts after the first newline that follows the first fence, that first line holds no newline, and the code ends no later than the end of the last fence |
| CodeFence.StripFenceLines | sdk/openhands_client.py:266-273 | on a slice that opens with the fence, the line handling raises exactly when the slice has no newline; a successful result is the newline-join of a contiguous run of the slice's lines |
| CodeFence.OpeningLineStartsWithFence | sdk/openhands_client.py:268-270 | the first line of a slice that opens with the fence opens with the fence, so it is always dropped |
| CodeFence.StripFenceLinesIsDropFenceLines | sdk/openhands_client.py:266-273 | the line-based handling equals a text-based description: drop through the first newline, then a trailing newline-plus-fence (or the bare fence) |
| CodeFence.ClosingFenceOnCodeLineIsKept | sdk/openhands_client.py:271-273 | when the slice does not end with a line holding only the fence, all text after the first line is kept, a fence glued to a code line included |
| CodeFence.ClosingFenceLineIsDropped | sdk/openhands_client.py:271-273 | when the slice ends with a line holding only the fence, that line is removed as well |
| CodeFence.NoNewlineBetweenFencesRaises | sdk/openhands_client.py:263-271 | content whose first and last fences differ and whose slice between them holds no newline qualifies and raises IndexError |
| CodeFence.SingleLineBlockRaises | sdk/openhands_client.py:268-271 | content such as "```x```" qualifies but raises IndexError |
| Text.Find | sdk/openhands_client.py:263 | the result is the first occurrence of the pattern, or none when it does not occur |
| Text.RFind | sdk/openhands_client.py:264 | the result is the last occurrence of the pattern, or none when it does not occur |
| Text.SplitPiecesLackSeparator | sdk/openhands_client.py:268 | no piece of a newline split contains a newline |
| Text.SplitIsSingleIffNoSeparator | sdk/openhands_client.py:268 | a split gives exactly one piece when, and only when, the text has no separator |
| Text.SplitFirstPiece | sdk/openhands_client.py:268-269 | the first piece is the text up to the first separator, or all of it when there is none |
| Text.JoinShape | sdk/openhands_client.py:273 | joining no pieces gives ""; otherwise the result starts with the first piece and ends with the last, and the separator directly follows the first piece when there are two or more |
| Text.JoinSplit | sdk/openhands_client.py:268-273 | joining the pieces of a split gives back the text |
| Text.SplitJoin | sdk/openhands_client.py:268-273 | splitting a join of separator-free pieces gives back the pieces |
| Text.Strip | sdk/deepseek_cli.py:163 | the result is empty exactly when the input is all whitespace, and otherwise neither starts nor ends with whitespace |
| Text.StripIsInfix | sdk/deepseek_cli.py:163 | the result is a contiguous part of the input with only whitespace before and after it |
| Text.SplitFirstWord | sdk/deepseek_cli.py:170 | no parts exactly when the text is all whitespace; at most two non-empty parts, the first without whitespace and the second not starting with whitespace |
| Text.Lower | sdk/deepseek_cli.py:171 | same length as the input, each character mapped on its own (ASCII letters only, see below) |
| Text.LowerMatchesIgnoringCase | sdk/deepseek_cli.py:171-174 | lower-casing a word gives a capital-free name exactly when the word is that name with any of its letters written in capitals, so "/QUIT", "/Quit" and "/quit" all match "/quit" and nothing else does |
| Text.SplitFirstWordCovers | sdk/deepseek_cli.py:170-172 | the one or two parts of a split at the first whitespace run are separated only by whitespace, and nothing else is lost |
| DeepSeekCli.ModelFlag | sdk/deepseek_cli.py:273 | without `--model` the model is the default, deepseek-coder-v2:16b (line 29); with it, the name given |
| DeepSeekCli.Dispatch | sdk/deepseek_cli.py:277-319 | exactly one action: list, interactive, code, review, explain, fix, positional prompt, help, each chosen only when no earlier flag is set, carrying the flag's value and the model |
| DeepSeekCli.DispatchIsFirstPresent | sdk/deepseek_cli.py:279-319 | the chain of tests is a priority list: the first flag set wins, help otherwise |
| DeepSeekCli.NoStreamOnlyAffectsPrompt | sdk/deepseek_cli.py:309-316 | toggling no-stream changes nothing but the streaming or non-streaming call for a positional prompt |
| DeepSeekCli.ErrorInfo | sdk/deepseek_cli.py:137 | the error line is empty exactly when the error is absent or empty, and otherwise ends with the error text |
| DeepSeekCli.PromptFor | sdk/deepseek_cli.py:60-147 | review, explain and fix make no model call exactly when their file is missing; otherwise review sends the review prompt and explain the explain prompt on the file's contents, and fix sends the file's contents with `ErrorInfo` of its error; code generation sends its task description with the language Python, and a positional prompt is sent as it is |
| DeepSeekCli.Perform | sdk/deepseek_cli.py:60-147 | a missing file yields "" without a model call; every other single-shot action yields the model's answer to its prompt |
| DeepSeekCli.MissingFileIgnoresModel | sdk/deepseek_cli.py:79-135 | for review, explain and fix alike, with the file missing the result is "" whatever the model would do |
| Interactive.ParseInput | sdk/deepseek_cli.py:163-172 | a line is blank exactly when it strips to nothing, a command exactly when the stripped line starts with "/", and otherwise a chat message equal to the stripped line |
| Interactive.ParsedCommandCoversLine | sdk/deepseek_cli.py:169-172 | the command is the lower-cased first word of the stripped line and the argument is everything after the whitespace run that follows it, starting at a non-space character, or "" when there is nothing |
| Interactive.CommandEffect | sdk/deepseek_cli.py:174-212 | quit, exit and q end the loop; code, review, explain and fix run only with a non-empty argument and otherwise print usage; each runs its own action on the argument and the session's model, the interactive fix with no error; help is shown exactly for "/help"; unknown names are reported |
| Interactive.Step | sdk/deepseek_cli.py:161-235 | blank lines and read errors leave the history alone, a Ctrl-C showing the quit hint and any other read error the error notice; a command's effect is that of the command; clear empties the history and other commands keep it; a chat turn asks the model with the history plus the user message, appends the user message, then the reply exactly when the model answered, and shows the reply or the failure |
| Interactive.ChatTurn | sdk/deepseek_cli.py:214-230 | a chat turn adds one or two entries: the user message, then the assistant reply when there is one |
| Interactive.StepKeepsWellFormed | sdk/deepseek_cli.py:161-235 | every assistant entry follows a user entry, and every user entry is a stripped non-empty non-command line, after any step |
| Interactive.Run | sdk/deepseek_cli.py:161-176 | the loop consumes inputs until the first goodbye, which is the last effect, and consumes them all when there is none |
| Interactive.RunStopsAtFirstQuit | sdk/deepseek_cli.py:161-176 | the loop quits exactly when some input is a quit command; the last input read is then that command and no earlier input read is one |
| Interactive.RunFromFollowsTurns | sdk/deepseek_cli.py:159-230 | for any turn function: the i-th input read is handled on the history the turns on the inputs before it left, its effect is the one recorded, and the session ends with the history the last turn read left (a left fold of the turn over the inputs read) |
| Interactive.RunFollowsSteps | sdk/deepseek_cli.py:159-230 | the session's final history is `Step` folded left over the inputs read, starting from the given history |
| Interactive.RunKeepsWellFormed | sdk/deepseek_cli.py:161-235 | the history stays well formed over any number of turns |
| Interactive.InputsAfterQuitAreIgnored | sdk/deepseek_cli.py:174-176 | inputs after a quit command are never read |
| Config.Table | sdk/config.py:10-35 | the table has exactly the four keys; the local entry is constant and the cloud entries take their key from the environment, "" when unset |
| Config.DefaultProvider | sdk/config.py:38 | the value of `LLM_PROVIDER`, or "deepseek_local" when it is unset |
| Config.GetLlmConfig | sdk/config.py:47-52 | a falsy provider means the default; a name among the keys gives exactly its table entry, any other raises an error naming it and listing the four keys in table order |
| Config.LocalConfigIgnoresEnvironment | sdk/config.py:12-16 | the local DeepSeek settings are the same in every environment |

## Left out

- The rest of `openhands_client.py` (runtime creation, commands, file access, browsing, `ask`, the async and sync wrappers): pass-through calls into OpenHands with no logic of their own.
- `list_models` and its size in GB: a foreign call and floating point.
- Console output, streaming `print`, spinners, panels and Markdown rendering: user interface only.
- The text of the prompt templates: the model records what each prompt is built from (task and language, file contents, error line), not the interpolated string.
- Argument parsing itself (`-h`, unknown flags, argparse's error exit): the model starts from the parsed flags.
- File reading errors other than a missing file, and `load_dotenv`; environment variables are parameters.
- `WORKSPACE_DIR` and `OPENHANDS_SERVER_URL` in `config.py`: plain environment lookups used only by the left-out client code.
- The demo scripts under `sdk/examples/`: they only call the SDK.
- Text.Lower: lower-cases ASCII letters only, where Python lower-cases all of Unicode, and Python's `lower()` can change the length of a string (U+0130 becomes "i" followed by a combining dot) while the model's never does. Command matching is unaffected: the Kelvin sign lowers to "k", which no command contains, and U+0130's result keeps a combining mark that no command contains; but an unknown command's echoed name may differ.
- Interactive.Step: a Ctrl-C or error while a slash command runs is folded into that command's result, and one during a chat reply into a failed reply; the printed notices are not modelled.

=== FILE: cli.dfy ===
/** Model of the decisions in `deepseek_cli.py`: which single action the parsed
    flags select, and what the single-shot actions send to the model. The model
    itself (Ollama) is a function value that answers or fails. */
module DeepSeekCli {
  import opened Results
  import opened Text

  const DefaultModel: string := "deepseek-coder-v2:16b"
  const DefaultLanguage: string := "python"

  /** The parsed command line. A string flag that was not given is None. */
  datatype Args = Args(
    prompt: Option<string>,
    interactive: bool,
    code: Option<string>,
    review: Option<string>,
    explain: Option<string>,
    fix: Option<string>,
    error: Option<string>,
    model: string,  // `ModelFlag` of the `--model` flag
    list: bool,
    noStream: bool)

  /** The model the `--model` flag selects: the given name, or `DefaultModel` when the flag is absent. */
  function ModelFlag(given: Option<string>): (model: string)
    ensures given.None? ==> model == DefaultModel
    ensures given.Some? ==> model == given.value
  {
    if given.Some? then given.value else DefaultModel
  }

  /** The one thing an invocation does. */
  datatype Action =
    | ListModels
    | Interactive(model: string)
    | GenerateCode(task: string, model: string)
    | Review(path: string, model: string)
    | Explain(path: string, model: string)
    | Fix(path: string, error: Option<string>, model: string)
    | Stream(text: string, model: string)
    | Chat(text: string, model: string)
    | ShowHelp

  /** `main`: the flags are examined in a fixed order and the first one set (for a
      string flag: given and non-empty) decides; `--no-stream` only matters for a
      positional prompt. */
  function Dispatch(a: Args): (act: Action)
    ensures act.ListModels? <==> a.list
    ensures act.Interactive? <==> !a.list && a.interactive
    ensures act.GenerateCode? <==> !a.list && !a.interactive && Truthy(a.code)
    ensures act.Review? <==> !a.list && !a.interactive && !Truthy(a.code) && Truthy(a.review)
    ensures act.Explain? <==>
      !a.list && !a.interactive && !Truthy(a.code) && !Truthy(a.review) && Truthy(a.explain)
    ensures act.Fix? <==>
      !a.list && !a.interactive && !Truthy(a.code) && !Truthy(a.review) && !Truthy(a.explain) && Truthy(a.fix)
    ensures act.Stream? <==> NoActionFlag(a) && Truthy(a.prompt) && !a.noStream
    ensures act.Chat? <==> NoActionFlag(a) && Truthy(a.prompt) && a.noStream
    ensures act.ShowHelp? <==> NoActionFlag(a) && !Truthy(a.prompt)
    ensures !act.ListModels? && !act.ShowHelp? ==> act.model == a.model
    ensures act.GenerateCode? ==> act.task == a.code.value
    ensures act.Review? ==> act.path == a.review.value
    ensures act.Explain? ==> act.path == a.explain.value
    ensures act.Fix? ==> act.path == a.fix.value && act.error == a.error
    ensures act.Stream? || act.Chat? ==> act.text == a.prompt.value
  {
    if a.list then ListModels
    else if a.interactive then Interactive(a.model)
    else if Truthy(a.code) then GenerateCode(a.code.value, a.model)
    else if Truthy(a.review) then Review(a.review.value, a.model)
    else if Truthy(a.explain) then Explain(a.explain.value, a.model)
    else if Truthy(a.fix) then Fix(a.fix.value, a.error, a.model)
    else if Truthy(a.prompt) then
      if a.noStream then Chat(a.prompt.value, a.model) else Stream(a.prompt.value, a.model)
    else ShowHelp
  }

  /** None of the flags that take precedence over the positional prompt is set. */
  predicate NoActionFlag(a: Args) {
    !a.list && !a.interactive && !Truthy(a.code) && !Truthy(a.review)
    && !Truthy(a.explain) && !Truthy(a.fix)
  }

  /** The candidate actions of an invocation in priority order, each present when its flag is set. */
  function Candidates(a: Args): seq<Option<Action>> {
    [ if a.list then Some(ListModels) else None,
      if a.interactive then Some(Interactive(a.model)) else None,
      if Truthy(a.code) then Some(GenerateCode(a.code.value, a.model)) else None,
      if Truthy(a.review) then Some(Review(a.review.value, a.model)) else None,
      if Truthy(a.explain) then Some(Explain(a.explain.value, a.model)) else None,
      if Truthy(a.fix) then Some(Fix(a.fix.value, a.error, a.model)) else None,
      if Truthy(a.prompt) then
        Some(if a.noStream then Chat(a.prompt.value, a.model) else Stream(a.prompt.value, a.model))
      else None ]
  }

  /** The first present candidate, or `otherwise`. */
  function FirstPresent(cands: seq<Option<Action>>, otherwise: Action): (r: Action)
    ensures r == otherwise || exists i :: 0 <= i < |cands| && cands[i] == Some(r)
    ensures (forall i :: 0 <= i < |cands| ==> cands[i].None?) ==> r == otherwise
    ensures forall i :: 0 <= i < |cands| && cands[i].Some? && (forall j :: 0 <= j < i ==> cands[j].None?) ==>
      r == cands[i].value
  {
    if |cands| == 0 then otherwise
    else if cands[0].Some? then cands[0].value
    else FirstPresent(cands[1..], otherwise)
  }

  /** The chain of tests in `main` is a priority list: the first flag set wins, help otherwise. */
  lemma DispatchIsFirstPresent(a: Args)
    ensures Dispatch(a) == FirstPresent(Candidates(a), ShowHelp)
  {
    var c := Candidates(a);
    assert FirstPresent(c[7..], ShowHelp) == ShowHelp;
    assert FirstPresent(c[6..], ShowHelp) == if c[6].Some? then c[6].value else ShowHelp by {
      assert c[6..][1..] == c[7..];
    }
    assert FirstPresent(c[5..], ShowHelp) == if c[5].Some? then c[5].value else FirstPresent(c[6..], ShowHelp) by {
      assert c[5..][1..] == c[6..];
    }
    assert FirstPresent(c[4..], ShowHelp) == if c[4].Some? then c[4].value else FirstPresent(c[5..], ShowHelp) by {
      assert c[4..][1..] == c[5..];
    }
    assert FirstPresent(c[3..], ShowHelp) == if c[3].Some? then c[3].value else FirstPresent(c[4..], ShowHelp) by {
      assert c[3..][1..] == c[4..];
    }
    assert FirstPresent(c[2..], ShowHelp) == if c[2].Some? then c[2].value else FirstPresent(c[3..], ShowHelp) by {
      assert c[2..][1..] == c[3..];
    }
    assert FirstPresent(c[1..], ShowHelp) == if c[1].Some? then c[1].value else FirstPresent(c[2..], ShowHelp) by {
      assert c[1..][1..] == c[2..];
    }
  }

  /** Exactly one action runs, and `--no-stream` changes nothing but the choice
      between the streaming and the non-streaming call for a positional prompt. */
  lemma NoStreamOnlyAffectsPrompt(a: Args, noStream: bool)
    ensures var x := Dispatch(a); var y := Dispatch(a.(noStream := noStream));
      x == y || ((x.Stream? || x.Chat?) && (y.Stream? || y.Chat?) && x.text == y.text && x.model == y.model)
  {
  }

  /** Who wrote a chat message. */
  datatype Role = User | Assistant

  datatype Message = Message(role: Role, content: string)

  /** What a single-shot action asks the model about; the prompt templates wrapped
      around these values are not modelled. */
  datatype Prompt =
    | CodeTask(task: string, language: string)
    | ReviewCode(code: string)
    | ExplainCode(code: string)
    | FixCode(code: string, errorInfo: string)
    | Plain(text: string)

  /** One call of `ollama.chat`: a single user prompt, or a whole conversation. */
  datatype Request = Single(prompt: Prompt) | Dialogue(messages: seq<Message>)

  /** The model: given the model name and the request, it answers (Some) or raises (None). */
  type Llm = (string, Request) -> Option<string>

  /** `error_info` of `fix_file`: an error line only for a given, non-empty error. */
  function ErrorInfo(error: Option<string>): (info: string)
    ensures info == "" <==> !Truthy(error)
    ensures Truthy(error) ==> EndsWith(info, error.value) && StartsWith(info, "\nError: ")
  {
    if Truthy(error) then "\nError: " + error.value else ""
  }

  /** The actions that make (at most) one model call and return its text. */
  predicate SingleShot(act: Action) {
    act.GenerateCode? || act.Review? || act.Explain? || act.Fix? || act.Stream? || act.Chat?
  }

  /** The actions that read a file first. */
  predicate ReadsFile(act: Action) {
    act.Review? || act.Explain? || act.Fix?
  }

  /** The prompt a single-shot action sends, or None when it returns "" without
      calling the model because its file does not exist. */
  function PromptFor(act: Action, files: map<string, string>): (p: Option<Prompt>)
    requires SingleShot(act)
    ensures p.None? <==> ReadsFile(act) && act.path !in files
    ensures ReadsFile(act) && p.Some? ==> !p.value.CodeTask? && !p.value.Plain? && p.value.code == files[act.path]
    ensures act.Review? && p.Some? ==> p.value == ReviewCode(files[act.path])
    ensures act.Explain? && p.Some? ==> p.value == ExplainCode(files[act.path])
    ensures act.Fix? && p.Some? ==> p.value == FixCode(files[act.path], ErrorInfo(act.error))
    ensures act.Fix? && p.Some? ==> (p.value.errorInfo == "" <==> !Truthy(act.error))
    ensures act.GenerateCode? ==> p == Some(CodeTask(act.task, DefaultLanguage))
    ensures act.Stream? || act.Chat? ==> p == Some(Plain(act.text))
  {
    match act
    case GenerateCode(task, _) => Some(CodeTask(task, DefaultLanguage))
    case Review(path, _) => if path in files then Some(ReviewCode(files[path])) else None
    case Explain(path, _) => if path in files then Some(ExplainCode(files[path])) else None
    case Fix(path, error, _) => if path in files then Some(FixCode(files[path], ErrorInfo(error))) else None
    case Stream(text, _) => Some(Plain(text))
    case Chat(text, _) => Some(Plain(text))
  }

  /** Runs a single-shot action: Some(text) is its return value, None means the model call raised. */
  function Perform(act: Action, files: map<string, string>, llm: Llm): (r: Option<string>)
    requires SingleShot(act)
    ensures ReadsFile(act) && act.path !in files ==> r == Some("")
    ensures PromptFor(act, files).Some? ==> r == llm(act.model, Single(PromptFor(act, files).value))
    ensures act.GenerateCode? ==> r == llm(act.model, Single(CodeTask(act.task, DefaultLanguage)))
    ensures act.Stream? || act.Chat? ==> r == llm(act.model, Single(Plain(act.text)))
    ensures ReadsFile(act) && act.path in files ==> r == llm(act.model, Single(PromptFor(act, files).value))
  {
    match PromptFor(act, files)
    case None => Some("")
    case Some(p) => llm(act.model, Single(p))
  }

  /** A missing file is answered without the model: the result is the same for every model. */
  lemma MissingFileIgnoresModel(act: Action, files: map<string, string>, llm1: Llm, llm2: Llm)
    requires ReadsFile(act) && act.path !in files
    ensures Perform(act, files, llm1) == Perform(act, files, llm2) == Some("")
  {
  }
}

=== FILE: code_fence.dfy ===
/** Model of `OpenHandsClient._extract_code_from_state`: the code of the most
    recent agent event whose content holds a triple-backtick fenced block. */
module CodeFence {
  import opened Results
  import opened Text

  const Fence: string := "```"
  const Newline: char := '\n'

  /** An event of the agent's history. `content` is None when the event has no
      `content` attribute; otherwise it is the text of `str(event.content)`. */
  datatype Event = Event(content: Option<string>)

  /** The exception raised by `lines[-1]` when no line is left. */
  datatype ExtractError = IndexError

  /** The fence occurs in `content` at two distinct positions. */
  predicate HasTwoFences(content: string) {
    exists i, j :: 0 <= i < j <= |content| && OccursAt(content, Fence, i) && OccursAt(content, Fence, j)
  }

  /** The line handling applied to the fenced slice `code`: split at newlines, drop
      the first line when it opens with the fence, then fail on an empty line list
      or drop the last line when it is exactly the fence, and join again. */
  function StripFenceLines(code: string): (r: Result<string, ExtractError>)
    ensures StartsWith(code, Fence) ==> (r.Err? <==> Newline !in code)
    ensures r.Ok? ==> exists i, j :: 0 <= i <= j <= |Split(code, Newline)|
                        && r.value == Join(Split(code, Newline)[i..j], Newline)
  {
    var lines := Split(code, Newline);
    OpeningLineStartsWithFence(code);
    SplitIsSingleIffNoSeparator(code, Newline);
    var body := if StartsWith(lines[0], Fence) then lines[1..] else lines;
    if |body| == 0 then Err(IndexError)
    else
      var kept := if body[|body| - 1] == Fence then body[..|body| - 1] else body;
      assert kept == lines[|lines| - |body|..|lines| - |body| + |kept|];
      Ok(Join(kept, Newline))
  }

  /** A slice that opens with the fence has a first line that opens with the fence,
      so the first line is always dropped. */
  lemma OpeningLineStartsWithFence(code: string)
    ensures StartsWith(code, Fence) ==> StartsWith(Split(code, Newline)[0], Fence)
  {
    if StartsWith(code, Fence) {
      var first := Split(code, Newline)[0];
      SplitFirstPiece(code, Newline);
      assert first[..|Fence|] == code[..|Fence|];
    }
  }

  /** A description of the same line handling on the text itself, without lines:
      everything up to and including the first newline goes; of what remains, a
      closing "\n```" goes, or all of it when it is the bare fence. */
  function DropFenceLines(code: string): (r: Result<string, ExtractError>)
  {
    match Find(code, [Newline])
    case None => Err(IndexError)
    case Some(k) =>
      var rest := code[k + 1..];
      if rest == Fence then Ok("")
      else if EndsWith(rest, [Newline] + Fence) then Ok(rest[..|rest| - 4])
      else Ok(rest)
  }

  lemma OccursAtChar(s: string, c: char, j: int)
    ensures OccursAt(s, [c], j) <==> 0 <= j < |s| && s[j] == c
  {
    if 0 <= j < |s| {
      assert s[j..j + 1] == [s[j]];
    }
  }

  /** The line-based and the text-based descriptions agree on every slice that opens with the fence. */
  lemma StripFenceLinesIsDropFenceLines(code: string)
    requires StartsWith(code, Fence)
    ensures StripFenceLines(code) == DropFenceLines(code)
  {
    var lines := Split(code, Newline);
    OpeningLineStartsWithFence(code);
    match Find(code, [Newline])
    case None =>
      if Newline in code {
        var j :| 0 <= j < |code| && code[j] == Newline;
        OccursAtChar(code, Newline, j);
      }
    case Some(k) =>
      OccursAtChar(code, Newline, k);
      var head := code[..k];
      var rest := code[k + 1..];
      forall j | 0 <= j < k
        ensures head[j] != Newline
      {
        OccursAtChar(code, Newline, j);
      }
      SplitNoSeparator(head, Newline);
      assert code == head + [Newline] + rest;
      SplitConcat(head, rest, Newline);
      assert lines[1..] == Split(rest, Newline);
      LastLineRule(rest);
  }

  /** On the text after the first newline, dropping a last line equal to the fence is the same as
      dropping a trailing "\n```" (or everything, when the text is the bare fence). */
  lemma LastLineRule(rest: string)
    ensures var b := Split(rest, Newline);
      Join(if b[|b| - 1] == Fence then b[..|b| - 1] else b, Newline)
      == (if rest == Fence then ""
          else if EndsWith(rest, [Newline] + Fence) then rest[..|rest| - 4]
          else rest)
  {
    var b := Split(rest, Newline);
    if b[|b| - 1] == Fence {
      LastLineRuleOnFence(rest, b);
    } else {
      LastLineRuleOnCode(rest, b);
    }
  }

  lemma LastLineRuleOnFence(rest: string, b: seq<string>)
    requires b == Split(rest, Newline) && b[|b| - 1] == Fence
    ensures EndsWith(rest, [Newline] + Fence) || rest == Fence
    ensures rest == Fence ==> b[..|b| - 1] == []
    ensures rest != Fence ==> rest[..|rest| - 4] == Join(b[..|b| - 1], Newline)
  {
    if |b| >= 2 {
      LastLineIsFence(rest, b);
    } else {
      JoinSplit(rest, Newline);
      assert b == [Fence];
    }
  }

  lemma LastLineRuleOnCode(rest: string, b: seq<string>)
    requires b == Split(rest, Newline) && b[|b| - 1] != Fence
    ensures rest != Fence && !EndsWith(rest, [Newline] + Fence)
    ensures Join(b, Newline) == rest
  {
    JoinSplit(rest, Newline);
    if rest == Fence {
      SplitNoSeparator(Fence, Newline);
    }
    if EndsWith(rest, [Newline] + Fence) {
      EndsWithFenceLine(rest);
    }
  }

  lemma LastLineIsFence(rest: string, b: seq<string>)
    requires b == Split(rest, Newline) && |b| >= 2 && b[|b| - 1] == Fence
    ensures EndsWith(rest, [Newline] + Fence) && rest != Fence
    ensures rest[..|rest| - 4] == Join(b[..|b| - 1], Newline)
  {
    var p := Join(b[..|b| - 1], Newline);
    assert rest == p + [Newline] + Fence by {
      JoinSplit(rest, Newline);
      JoinSnoc(b, Newline);
    }
    FenceLineSuffix(rest, p);
  }

  lemma FenceLineSuffix(rest: string, p: string)
    requires rest == p + [Newline] + Fence
    ensures EndsWith(rest, [Newline] + Fence) && rest != Fence
    ensures rest[..|rest| - 4] == p
  {
    assert rest[|rest| - 4..] == [Newline] + Fence;
  }

  lemma EndsWithFenceLine(rest: string)
    requires EndsWith(rest, [Newline] + Fence)
    ensures var b := Split(rest, Newline); b[|b| - 1] == Fence
  {
    var p := rest[..|rest| - 4];
    assert rest == p + [Newline] + Fence;
    SplitConcat(p, Fence, Newline);
    SplitNoSeparator(Fence, Newline);
  }

  /** What one event contributes: None when the scan skips it, otherwise the
      outcome of extracting from the slice between its first and last fence. */
  function FromEvent(e: Event): (r: Option<Result<string, ExtractError>>)
    ensures r.Some? <==> e.content.Some? && HasTwoFences(e.content.value)
  {
    if e.content.None? then None
    else
      var content := e.content.value;
      match Find(content, Fence)
      case None => None
      case Some(start) =>
        var end := RFind(content, Fence).value;
        if start == end then None
        else Some(StripFenceLines(content[start..end + 3]))
  }

  /** `_extract_code_from_state`: events are examined newest first; the first one
      that qualifies decides the result (an IndexError ends the scan), and a
      history without a qualifying event yields "". */
  function ExtractCodeFromState(history: seq<Event>): (r: Result<string, ExtractError>)
    ensures r == Ok("") || exists i :: 0 <= i < |history| && FromEvent(history[i]) == Some(r)
    decreases |history|
  {
    if |history| == 0 then Ok("")
    else
      match FromEvent(history[|history| - 1])
      case Some(outcome) => outcome
      case None => ExtractCodeFromState(history[..|history| - 1])
  }

  /** The result is that of the latest qualifying event. */
  lemma {:induction false} ExtractUsesLatestQualifying(history: seq<Event>, i: nat)
    requires i < |history| && FromEvent(history[i]).Some?
    requires forall j :: i < j < |history| ==> FromEvent(history[j]).None?
    ensures ExtractCodeFromState(history) == FromEvent(history[i]).value
    decreases |history|
  {
    var older := history[..|history| - 1];
    if i < |history| - 1 {
      SkipsLatestUnqualified(history);
      assert forall j :: i < j < |older| ==> older[j] == history[j];
      ExtractUsesLatestQualifying(older, i);
    }
  }

  /** An event that does not qualify is passed over. */
  lemma SkipsLatestUnqualified(history: seq<Event>)
    requires |history| > 0 && FromEvent(history[|history| - 1]).None?
    ensures ExtractCodeFromState(history) == ExtractCodeFromState(history[..|history| - 1])
  {
  }

  /** Without a qualifying event, the empty history included, the result is "". */
  lemma {:induction false} ExtractWithoutQualifying(history: seq<Event>)
    requires forall j :: 0 <= j < |history| ==> FromEvent(history[j]).None?
    ensures ExtractCodeFromState(history) == Ok("")
    decreases |history|
  {
    if |history| > 0 {
      ExtractWithoutQualifying(history[..|history| - 1]);
    }
  }

  /** The first newline of `code` is at `k`. */
  predicate FirstNewlineAt(code: string, k: nat) {
    k < |code| && code[k] == Newline && Newline !in code[..k]
  }

  /** The text-based description keeps a prefix of what follows the first newline. */
  lemma DropFenceLinesKeepsPrefixOfRest(code: string, k: nat, r: string)
    requires FirstNewlineAt(code, k)
    ensures DropFenceLines(code).Ok?
    ensures DropFenceLines(code) == Ok(r) ==> k + 1 + |r| <= |code| && r == code[k + 1..k + 1 + |r|]
  {
    FindFirstNewline(code, k);
  }

  lemma FindFirstNewline(code: string, k: nat)
    requires FirstNewlineAt(code, k)
    ensures Find(code, [Newline]) == Some(k)
  {
    OccursAtChar(code, Newline, k);
    forall j | 0 <= j < k
      ensures !OccursAt(code, [Newline], j)
    {
      OccursAtChar(code, Newline, j);
      assert code[j] == code[..k][j];
    }
  }

  /** An event's content, once it qualifies, is cut to the slice from its first to its last fence. */
  lemma FromEventSlices(content: string, start: nat, end: nat)
    requires Find(content, Fence) == Some(start) && RFind(content, Fence) == Some(end)
    requires FromEvent(Event(Some(content))).Some?
    ensures start < end && end + |Fence| <= |content|
    ensures FromEvent(Event(Some(content))) == Some(StripFenceLines(content[start..end + 3]))
  {
  }

  /** In a slice that opens with the fence, the kept text starts right after the
      first newline, which comes after the fence. */
  lemma KeptTextFollowsFirstLine(slice: string, code: string) returns (k: nat)
    requires StartsWith(slice, Fence) && StripFenceLines(slice) == Ok(code)
    ensures FirstNewlineAt(slice, k) && |Fence| <= k
    ensures k + 1 + |code| <= |slice| && code == slice[k + 1..k + 1 + |code|]
  {
    StripFenceLinesIsDropFenceLines(slice);
    k := FirstNewline(slice);
    DropFenceLinesKeepsPrefixOfRest(slice, k, code);
  }

  /** The extracted code lies strictly after the first newline that follows the
      first fence, and ends no later than the end of the last fence. */
  lemma ExtractedLiesBetweenFences(content: string, start: nat, end: nat, code: string) returns (a: nat)
    requires Find(content, Fence) == Some(start) && RFind(content, Fence) == Some(end)
    requires FromEvent(Event(Some(content))) == Some(Ok(code))
    ensures start + |Fence| < a && a + |code| <= end + |Fence|
    ensures content[a - 1] == Newline && Newline !in content[start..a - 1]
    ensures content[a..a + |code|] == code
  {
    QualifyingSliceGivesCode(content, start, end, code);
    a := CodeInSlice(content, start, end + 3, code);
  }

  /** The code an event yields is what the line handling makes of its fenced slice. */
  lemma QualifyingSliceGivesCode(content: string, start: nat, end: nat, code: string)
    requires Find(content, Fence) == Some(start) && RFind(content, Fence) == Some(end)
    requires FromEvent(Event(Some(content))) == Some(Ok(code))
    ensures start + |Fence| <= end + 3 <= |content|
    ensures StartsWith(content[start..end + 3], Fence) && StripFenceLines(content[start..end + 3]) == Ok(code)
  {
    FromEventSlices(content, start, end);
    SliceAtOccurrence(content, Fence, start, end + 3);
  }

  /** Where the code kept from the slice `content[lo..hi]` sits in `content`. */
  lemma CodeInSlice(content: string, lo: nat, hi: nat, code: string) returns (a: nat)
    requires lo + |Fence| <= hi <= |content|
    requires StartsWith(content[lo..hi], Fence) && StripFenceLines(content[lo..hi]) == Ok(code)
    ensures lo + |Fence| < a && a + |code| <= hi
    ensures content[a - 1] == Newline && Newline !in content[lo..a - 1]
    ensures content[a..a + |code|] == code
  {
    var k := KeptTextFollowsFirstLine(content[lo..hi], code);
    a := lo + k + 1;
    WindowInContent(content, lo, hi, k, code);
  }

  /** Positions inside `content[lo..hi]` carried back to `content`. */
  lemma WindowInContent(content: string, lo: nat, hi: nat, k: nat, code: string)
    requires lo <= hi <= |content|
    requires FirstNewlineAt(content[lo..hi], k)
    requires k + 1 + |code| <= hi - lo && code == content[lo..hi][k + 1..k + 1 + |code|]
    ensures content[lo + k] == Newline && Newline !in content[lo..lo + k]
    ensures content[lo + k + 1..lo + k + 1 + |code|] == code
  {
    assert content[lo..lo + k] == content[lo..hi][..k];
    var w := content[lo..hi];
    forall i | 0 <= i < |code|
      ensures content[lo + k + 1..lo + k + 1 + |code|][i] == code[i]
    {
      assert code[i] == w[k + 1 + i];
    }
  }

  /** A slice the line handling accepts has a first newline. */
  lemma FirstNewline(code: string) returns (k: nat)
    requires StartsWith(code, Fence) && StripFenceLines(code).Ok?
    ensures FirstNewlineAt(code, k)
  {
    var j :| 0 <= j < |code| && code[j] == Newline;
    OccursAtChar(code, Newline, j);
    k := Find(code, [Newline]).value;
    OccursAtChar(code, Newline, k);
    forall i | 0 <= i < k
      ensures code[..k][i] != Newline
    {
      OccursAtChar(code, Newline, i);
    }
  }

  /** When the slice does not end with a line holding only the fence, everything after
      the first line is kept, a closing fence glued to a code line included. */
  lemma ClosingFenceOnCodeLineIsKept(code: string, k: nat)
    requires StartsWith(code, Fence) && FirstNewlineAt(code, k)
    requires !EndsWith(code, [Newline] + Fence)
    ensures StripFenceLines(code) == Ok(code[k + 1..])
  {
    StripFenceLinesIsDropFenceLines(code);
    FindFirstNewline(code, k);
  }

  /** When the slice ends with a line holding only the fence, that line goes too. */
  lemma ClosingFenceLineIsDropped(code: string, k: nat)
    requires StartsWith(code, Fence) && FirstNewlineAt(code, k)
    requires EndsWith(code, [Newline] + Fence)
    ensures k + 4 <= |code|
    ensures StripFenceLines(code) == Ok(if k + 4 == |code| then "" else code[k + 1..|code| - 4])
  {
    StripFenceLinesIsDropFenceLines(code);
    FindFirstNewline(code, k);
    var rest := code[k + 1..];
    if k + 4 == |code| {
      assert rest == code[|code| - 3..];
    } else {
      assert rest[|rest| - 4..] == code[|code| - 4..];
      assert rest != Fence;
      assert rest[..|rest| - 4] == code[k + 1..|code| - 4];
    }
  }

  /** Content whose slice from the first to the last fence holds no newline qualifies and
      fails on `lines[-1]`. */
  lemma NoNewlineBetweenFencesRaises(content: string, start: nat, end: nat)
    requires Find(content, Fence) == Some(start) && RFind(content, Fence) == Some(end) && start != end
    requires Newline !in content[start..end + 3]
    ensures FromEvent(Event(Some(content))) == Some(Err(IndexError))
  {
    SliceAtOccurrence(content, Fence, start, end + 3);
  }

  /** A block on a single line, such as "```x```", fails on `lines[-1]`. */
  lemma SingleLineBlockRaises(c: string)
    requires c == "```x```"
    ensures FromEvent(Event(Some(c))) == Some(Err(IndexError))
  {
    SingleLineBlockFences(c);
    assert c[0..7] == c;
    assert Newline !in c;
    NoNewlineBetweenFencesRaises(c, 0, 4);
  }

  lemma SingleLineBlockFences(c: string)
    requires c == "```x```"
    ensures OccursAt(c, Fence, 0) && OccursAt(c, Fence, 4)
    ensures Find(c, Fence) == Some(0) && RFind(c, Fence) == Some(4)
  {
    assert c[0..3] == Fence && c[4..7] == Fence;
  }
}

=== FILE: config.dfy ===
/** Model of `config.py`: the static table of LLM providers and `get_llm_config`.
    Values read from the process environment are parameters. */
module Config {
  import opened Results
  import opened Text

  /** One provider's settings. */
  datatype LlmConfig = LlmConfig(model: string, apiKey: string, baseUrl: string)

  /** The environment variables the table reads; None when a variable is unset. */
  datatype Env = Env(
    deepseekApiKey: Option<string>,
    openaiApiKey: Option<string>,
    anthropicApiKey: Option<string>,
    llmProvider: Option<string>)

  /** `get_llm_config`'s `ValueError`: the unknown name and the names it lists as available. */
  datatype ConfigError = UnknownProvider(provider: string, available: seq<string>)

  /** The table's keys, in the order the table declares them (and the error message lists them). */
  const ProviderNames: seq<string> := ["deepseek_local", "deepseek_api", "openai", "anthropic"]

  /** The local DeepSeek entry, fixed whatever the environment. */
  const LocalConfig: LlmConfig := LlmConfig("ollama/deepseek-coder-v2:16b", "ollama", "http://localhost:11434")

  /** `os.getenv(name, default)`. */
  function GetEnv(value: Option<string>, default: string): (r: string)
    ensures value.Some? ==> r == value.value
    ensures value.None? ==> r == default
  {
    if value.Some? then value.value else default
  }

  /** `LLM_CONFIG`: four entries, the cloud ones taking their key from the environment ("" if unset). */
  function Table(env: Env): (t: map<string, LlmConfig>)
    ensures forall n :: n in t <==> n in ProviderNames
    ensures t["deepseek_local"] == LocalConfig
    ensures t["deepseek_api"] == LlmConfig("deepseek-chat", GetEnv(env.deepseekApiKey, ""), "https://api.deepseek.com/v1")
    ensures t["openai"] == LlmConfig("gpt-4o", GetEnv(env.openaiApiKey, ""), "https://api.openai.com/v1")
    ensures t["anthropic"] ==
      LlmConfig("claude-sonnet-4-20250514", GetEnv(env.anthropicApiKey, ""), "https://api.anthropic.com")
  {
    map[
      "deepseek_local" := LocalConfig,
      "deepseek_api" := LlmConfig("deepseek-chat", GetEnv(env.deepseekApiKey, ""), "https://api.deepseek.com/v1"),
      "openai" := LlmConfig("gpt-4o", GetEnv(env.openaiApiKey, ""), "https://api.openai.com/v1"),
      "anthropic" := LlmConfig("claude-sonnet-4-20250514", GetEnv(env.anthropicApiKey, ""), "https://api.anthropic.com")
    ]
  }

  /** `DEFAULT_PROVIDER`: `LLM_PROVIDER`, or the local DeepSeek entry when unset. */
  function DefaultProvider(env: Env): (name: string)
    ensures env.llmProvider.None? ==> name == "deepseek_local"
    ensures env.llmProvider.Some? ==> name == env.llmProvider.value
  {
    GetEnv(env.llmProvider, "deepseek_local")
  }

  /** `get_llm_config`: a falsy argument means the default provider; a known name
      gives exactly its table entry, any other name raises `ValueError`. */
  function GetLlmConfig(env: Env, provider: Option<string>): (r: Result<LlmConfig, ConfigError>)
    ensures var name := if Truthy(provider) then provider.value else DefaultProvider(env);
      && (r.Ok? <==> name in ProviderNames)
      && (r.Ok? ==> r.value == Table(env)[name])
      && (r.Err? ==> r.error == UnknownProvider(name, ProviderNames))
  {
    var name := if Truthy(provider) then provider.value else DefaultProvider(env);
    var table := Table(env);
    if name !in table then Err(UnknownProvider(name, ProviderNames))
    else Ok(table[name])
  }

  /** The provider names are four distinct strings. */
  lemma ProviderNamesDistinct()
    ensures |ProviderNames| == 4
    ensures forall i, j :: 0 <= i < j < |ProviderNames| ==> ProviderNames[i] != ProviderNames[j]
  {
  }

  /** Asking for the local DeepSeek provider, directly or through the default with
      `LLM_PROVIDER` unset, gives the same settings in every environment. */
  lemma LocalConfigIgnoresEnvironment(env: Env, provider: Option<string>)
    requires provider == Some("deepseek_local") || (!Truthy(provider) && env.llmProvider.None?)
    ensures GetLlmConfig(env, provider) == Ok(LocalConfig)
  {
    assert "deepseek_local" in ProviderNames;
  }
}

=== FILE: interactive.dfy ===
/** Model of `interactive_mode` in `deepseek_cli.py`: each line read from the
    console is parsed into nothing, a slash command or a chat message, and the
    conversation history changes accordingly. */
module Interactive {
  import opened Results
  import opened Text
  import opened DeepSeekCli

  /** One attempt to read a line: a line, Ctrl-C, or any other read error (such as end of input). */
  datatype Input = Line(raw: string) | Interrupted | InputFailed

  /** A stripped input line: empty, a slash command with its argument, or a chat message. */
  datatype Parsed = Blank | Command(name: string, arg: string) | Say(text: string)

  /** What a step shows the user (or runs) besides changing the history. */
  datatype Effect =
    | Ignored
    | Goodbye
    | Usage(command: string)
    | Ran(action: Action, result: Option<string>)
    | Cleared
    | ShowedHelp
    | UnknownCommand(command: string)
    | Replied(reply: string)
    | ChatFailed
    | InterruptNotice
    | InputError

  datatype StepResult = StepResult(effect: Effect, history: seq<Message>)

  const QuitCommands: set<string> := {"/quit", "/exit", "/q"}

  /** The input is a quit command: "/quit", "/exit" or "/q" in any letter case, alone or with an argument. */
  predicate IsQuit(input: Input) {
    input.Line? && ParseInput(input.raw).Command? && ParseInput(input.raw).name in QuitCommands
  }

  /** Strip the line; a leading "/" makes it a command, split once at the first
      whitespace run, with the command word lower-cased. */
  function ParseInput(raw: string): (p: Parsed)
    ensures p.Blank? <==> Strip(raw) == ""
    ensures p.Command? <==> Strip(raw) != "" && Strip(raw)[0] == '/'
    ensures p.Say? ==> p.text == Strip(raw)
    ensures p.Command? ==> p.name != "" && p.name[0] == '/'
  {
    var s := Strip(raw);
    if s == "" then Blank
    else if s[0] == '/' then
      var parts := SplitFirstWord(s);
      Command(Lower(parts[0]), if |parts| > 1 then parts[1] else "")
    else Say(s)
  }

  /** A command is the lower-cased first word of the stripped line, and its argument
      is all of the rest after the whitespace that follows the word ("" if none),
      starting at a non-space character. */
  lemma ParsedCommandCoversLine(raw: string, s: string, name: string, arg: string)
    requires s == Strip(raw) && ParseInput(raw) == Command(name, arg)
    ensures |name| <= |s| && name == Lower(s[..|name|])
    ensures forall i :: 0 <= i < |name| ==> !IsSpace(s[i])
    ensures arg == "" ==> |name| == |s|
    ensures arg != "" ==> EndsWith(s, arg) && |name| < |s| - |arg| && AllSpace(s, |name|, |s| - |arg|)
    ensures arg != "" ==> !IsSpace(arg[0])
  {
    var parts := SplitFirstWord(s);
    CommandFromParts(raw, s, parts);
    StrippedWordSplit(s, parts);
  }

  /** The command and argument `ParseInput` builds from the word split of the stripped line. */
  lemma CommandFromParts(raw: string, s: string, parts: seq<string>)
    requires s == Strip(raw) && ParseInput(raw).Command? && parts == SplitFirstWord(s)
    ensures s != "" && !IsSpace(s[0]) && !IsSpace(s[|s| - 1])
    ensures |parts| >= 1 && ParseInput(raw) == Command(Lower(parts[0]), if |parts| > 1 then parts[1] else "")
  {
    assert s != "" && s[0] == '/';
  }

  /** `split(maxsplit=1)` of a non-empty stripped line. */
  lemma StrippedWordSplit(s: string, parts: seq<string>)
    requires s != "" && !IsSpace(s[0]) && !IsSpace(s[|s| - 1])
    requires parts == SplitFirstWord(s)
    ensures 1 <= |parts| <= 2 && |parts[0]| <= |s| && parts[0] == s[..|parts[0]|]
    ensures forall i :: 0 <= i < |parts[0]| ==> !IsSpace(s[i])
    ensures |parts| == 1 ==> |parts[0]| == |s|
    ensures |parts| == 2 ==> EndsWith(s, parts[1]) && |parts[0]| < |s| - |parts[1]|
                             && AllSpace(s, |parts[0]|, |s| - |parts[1]|)
    ensures |parts| == 2 ==> !IsSpace(parts[1][0])
  {
    LStripKeepsUnpadded(s);
    SplitFirstWordCovers(s, s, parts);
    var w := parts[0];
    assert w == s[..|w|];
    forall i | 0 <= i < |w|
      ensures !IsSpace(s[i])
    {
      assert s[i] == w[i];
    }
  }

  /** What a slash command does; the four action commands need a non-empty argument. */
  function CommandEffect(name: string, arg: string, model: string, files: map<string, string>, llm: Llm): (e: Effect)
    ensures e.Goodbye? <==> name in QuitCommands
    ensures e.Cleared? <==> name == "/clear"
    ensures e.Usage? <==> name in {"/code", "/review", "/explain", "/fix"} && arg == ""
    ensures e.Ran? <==> name in {"/code", "/review", "/explain", "/fix"} && arg != ""
    ensures e.Ran? ==> SingleShot(e.action) && e.result == Perform(e.action, files, llm)
    ensures e.Ran? && name == "/code" ==> e.action == GenerateCode(arg, model)
    ensures e.Ran? && name == "/review" ==> e.action == Review(arg, model)
    ensures e.Ran? && name == "/explain" ==> e.action == Explain(arg, model)
    ensures e.Ran? && name == "/fix" ==> e.action == Fix(arg, None, model)
    ensures e.Usage? ==> e.command == name
    ensures e.ShowedHelp? <==> name == "/help"
    ensures e.UnknownCommand? ==> e.command == name
    ensures e.UnknownCommand? <==>
      name !in QuitCommands && name !in {"/code", "/review", "/explain", "/fix", "/clear", "/help"}
  {
    if name in QuitCommands then Goodbye
    else if name in {"/code", "/review", "/explain", "/fix"} then
      if arg == "" then Usage(name)
      else
        var act :=
          if name == "/code" then GenerateCode(arg, model)
          else if name == "/review" then Review(arg, model)
          else if name == "/explain" then Explain(arg, model)
          else Fix(arg, None, model);
        Ran(act, Perform(act, files, llm))
    else if name == "/clear" then Cleared
    else if name == "/help" then ShowedHelp
    else UnknownCommand(name)
  }

  /** One turn of the loop. Errors raised while reading or while running a command are caught
      and leave the history alone; a chat turn first records the user message and records the
      reply only if the model answered. */
  function Step(history: seq<Message>, input: Input, model: string, files: map<string, string>, llm: Llm)
    : (r: StepResult)
    ensures !input.Line? ==> r.history == history
    ensures input.Interrupted? ==> r.effect == InterruptNotice
    ensures input.InputFailed? ==> r.effect == InputError
    ensures input.Line? && Strip(input.raw) == "" ==> r == StepResult(Ignored, history)
    ensures r.effect.Goodbye? <==> IsQuit(input)
    ensures input.Line? && ParseInput(input.raw).Command? ==>
      r.effect == CommandEffect(ParseInput(input.raw).name, ParseInput(input.raw).arg, model, files, llm)
    ensures input.Line? && ParseInput(input.raw).Say? ==>
      var answer := llm(model, Dialogue(history + [Message(User, Strip(input.raw))]));
      r.effect == (if answer.Some? then Replied(answer.value) else ChatFailed)
    ensures input.Line? && ParseInput(input.raw).Command? ==>
      r.history == (if ParseInput(input.raw).name == "/clear" then [] else history)
    ensures input.Line? && ParseInput(input.raw).Say? ==>
      && |history| < |r.history| <= |history| + 2
      && r.history[..|history|] == history
      && r.history[|history|] == Message(User, Strip(input.raw))
      && (|r.history| == |history| + 2 <==> llm(model, Dialogue(r.history[..|history| + 1])).Some?)
      && (|r.history| == |history| + 2 ==>
            r.history[|history| + 1] == Message(Assistant, llm(model, Dialogue(r.history[..|history| + 1])).value))
  {
    match input
    case Interrupted => StepResult(InterruptNotice, history)
    case InputFailed => StepResult(InputError, history)
    case Line(raw) =>
      match ParseInput(raw)
      case Blank => StepResult(Ignored, history)
      case Command(name, arg) =>
        StepResult(CommandEffect(name, arg, model, files, llm), if name == "/clear" then [] else history)
      case Say(text) =>
        var answer := llm(model, Dialogue(history + [Message(User, text)]));
        StepResult(if answer.Some? then Replied(answer.value) else ChatFailed, ChatTurn(history, text, answer))
  }

  /** The history after a chat turn: the user message, then the reply if the model answered. */
  function ChatTurn(history: seq<Message>, text: string, answer: Option<string>): (h: seq<Message>)
    ensures |h| == |history| + (if answer.Some? then 2 else 1)
    ensures h[..|history|] == history && h[|history|] == Message(User, text)
    ensures h[..|history| + 1] == history + [Message(User, text)]
    ensures answer.Some? ==> h[|history| + 1] == Message(Assistant, answer.value)
  {
    var asked := history + [Message(User, text)];
    assert asked[..|history|] == history;
    match answer
    case None => asked
    case Some(reply) =>
      var answered := asked + [Message(Assistant, reply)];
      assert answered[..|history| + 1] == asked;
      assert answered[..|history|] == history;
      answered
  }

  /** A user message as the loop records it: stripped, non-empty and not a command. */
  predicate UserText(t: string) {
    t != "" && t[0] != '/' && !IsSpace(t[0]) && !IsSpace(t[|t| - 1])
  }

  /** Every assistant message answers the user message just before it, and every
      user message is a stripped, non-empty, non-command line. */
  predicate WellFormed(history: seq<Message>) {
    forall i :: 0 <= i < |history| ==> WellPlaced(history, i)
  }

  /** The message at `i` is a recorded user text, or an answer to the user message before it. */
  predicate WellPlaced(history: seq<Message>, i: nat)
    requires i < |history|
  {
    && (history[i].role == Assistant ==> i > 0 && history[i - 1].role == User)
    && (history[i].role == User ==> UserText(history[i].content))
  }

  /** Every step keeps the history well formed. */
  lemma StepKeepsWellFormed(history: seq<Message>, input: Input, model: string, files: map<string, string>, llm: Llm)
    requires WellFormed(history)
    ensures WellFormed(Step(history, input, model, files, llm).history)
  {
    var r := Step(history, input, model, files, llm);
    if !input.Line? {
      assert r.history == history;
    } else {
      match ParseInput(input.raw)
      case Blank =>
        assert r.history == history;
      case Command(name, _) =>
        assert r.history == [] || r.history == history;
      case Say(t) =>
        assert UserText(t);
        var answer := llm(model, Dialogue(history + [Message(User, t)]));
        assert r.history == ChatTurn(history, t, answer);
        ChatTurnKeepsWellFormed(history, t, answer);
    }
  }

  lemma ChatTurnKeepsWellFormed(history: seq<Message>, t: string, answer: Option<string>)
    requires WellFormed(history) && UserText(t)
    ensures WellFormed(ChatTurn(history, t, answer))
  {
    var asked := history + [Message(User, t)];
    AppendKeepsWellFormed(history, Message(User, t));
    if answer.Some? {
      AppendKeepsWellFormed(asked, Message(Assistant, answer.value));
    }
  }

  /** Appending a user text, or an assistant message right after a user message, keeps the history well formed. */
  lemma AppendKeepsWellFormed(history: seq<Message>, m: Message)
    requires WellFormed(history)
    requires m.role == User ==> UserText(m.content)
    requires m.role == Assistant ==> |history| > 0 && history[|history| - 1].role == User
    ensures WellFormed(history + [m])
  {
    var h := history + [m];
    forall i | 0 <= i < |h|
      ensures WellPlaced(h, i)
    {
      if i < |history| {
        assert WellPlaced(history, i);
        assert h[i] == history[i];
        if i > 0 {
          assert h[i - 1] == history[i - 1];
        }
      } else {
        assert h[i] == m;
        if m.role == Assistant {
          assert h[i - 1] == history[|history| - 1];
        }
      }
    }
  }

  /** The outcome of running the loop over a sequence of inputs. */
  datatype Session = Session(history: seq<Message>, effects: seq<Effect>, consumed: nat, quit: bool)

  /** One turn of the loop: the history and the input read give the effect and the new history. */
  type Turn = (seq<Message>, Input) -> StepResult

  /** The loop: steps through the inputs until a quit command, which ends it. */
  function Run(history: seq<Message>, inputs: seq<Input>, model: string, files: map<string, string>, llm: Llm)
    : (s: Session)
    ensures s.consumed <= |inputs| && |s.effects| == s.consumed
    ensures s.quit <==> s.consumed > 0 && s.effects[s.consumed - 1].Goodbye?
    ensures forall i :: 0 <= i < s.consumed - 1 ==> !s.effects[i].Goodbye?
    ensures !s.quit ==> s.consumed == |inputs|
  {
    RunFrom(history, inputs, 0, TurnOf(model, files, llm))
  }

  /** `Step` with the model, the files and the LLM fixed. */
  function TurnOf(model: string, files: map<string, string>, llm: Llm): (turn: Turn)
    ensures forall h, input :: turn(h, input) == Step(h, input, model, files, llm)
  {
    (h, input) => Step(h, input, model, files, llm)
  }

  /** The loop from the input at index `from` on; it ends on the first turn whose effect is `Goodbye`. */
  function RunFrom(history: seq<Message>, inputs: seq<Input>, from: nat, turn: Turn): (s: Session)
    requires from <= |inputs|
    ensures s.consumed <= |inputs| - from && |s.effects| == s.consumed
    ensures s.quit <==> s.consumed > 0 && s.effects[s.consumed - 1].Goodbye?
    ensures forall i :: 0 <= i < s.consumed - 1 ==> !s.effects[i].Goodbye?
    ensures !s.quit ==> s.consumed == |inputs| - from
    decreases |inputs| - from
  {
    if from == |inputs| then Session(history, [], 0, false)
    else
      var r := turn(history, inputs[from]);
      if r.effect.Goodbye? then Session(r.history, [r.effect], 1, true)
      else
        var rest := RunFrom(r.history, inputs, from + 1, turn);
        Session(rest.history, [r.effect] + rest.effects, rest.consumed + 1, rest.quit)
  }

  /** The history left by `n` turns on the inputs from index `from` on, each turn starting
      from the history the one before it left: the turn folded left over those inputs. */
  function HistoryAfter(history: seq<Message>, inputs: seq<Input>, from: nat, n: nat, turn: Turn): seq<Message>
    requires from + n <= |inputs|
    decreases n
  {
    if n == 0 then history
    else HistoryAfter(turn(history, inputs[from]).history, inputs, from + 1, n - 1, turn)
  }

  /** The loop threads the history through its turns: each turn runs on the history the turns
      before it left, its effect is the one recorded, and the session ends with the history
      left by the last turn read. */
  lemma {:induction false} RunFromFollowsTurns(history: seq<Message>, inputs: seq<Input>, from: nat, turn: Turn)
    requires from <= |inputs|
    ensures var s := RunFrom(history, inputs, from, turn);
      && s.history == HistoryAfter(history, inputs, from, s.consumed, turn)
      && forall i {:trigger s.effects[i]} :: 0 <= i < s.consumed ==>
           s.effects[i] == turn(HistoryAfter(history, inputs, from, i, turn), inputs[from + i]).effect
    decreases |inputs| - from
  {
    if from < |inputs| {
      var r := turn(history, inputs[from]);
      if !r.effect.Goodbye? {
        RunFromFollowsTurns(r.history, inputs, from + 1, turn);
        var rest := RunFrom(r.history, inputs, from + 1, turn);
        var s := RunFrom(history, inputs, from, turn);
        forall i | 0 <= i < s.consumed
          ensures s.effects[i] == turn(HistoryAfter(history, inputs, from, i, turn), inputs[from + i]).effect
        {
          if i > 0 {
            assert s.effects[i] == rest.effects[i - 1];
            assert inputs[from + i] == inputs[from + 1 + (i - 1)];
          }
        }
      }
    }
  }

  /** The session ends with the history left by `Step` folded over the inputs it read; with
      `RunFromFollowsTurns` for `TurnOf`, each recorded effect is `Step`'s on the history the
      inputs before it left. */
  lemma RunFollowsSteps(history: seq<Message>, inputs: seq<Input>, model: string,
                        files: map<string, string>, llm: Llm)
    ensures var s := Run(history, inputs, model, files, llm);
      s.history == HistoryAfter(history, inputs, 0, s.consumed, TurnOf(model, files, llm))
  {
    RunFromFollowsTurns(history, inputs, 0, TurnOf(model, files, llm));
  }

  /** The loop keeps the history well formed over any number of turns. */
  lemma RunKeepsWellFormed(history: seq<Message>, inputs: seq<Input>, model: string,
                           files: map<string, string>, llm: Llm)
    requires WellFormed(history)
    ensures WellFormed(Run(history, inputs, model, files, llm).history)
  {
    var turn := TurnOf(model, files, llm);
    forall h, input | WellFormed(h)
      ensures WellFormed(turn(h, input).history)
    {
      StepKeepsWellFormed(h, input, model, files, llm);
    }
    RunFromKeepsWellFormed(history, inputs, 0, turn);
  }

  lemma {:induction false} RunFromKeepsWellFormed(history: seq<Message>, inputs: seq<Input>, from: nat, turn: Turn)
    requires from <= |inputs| && WellFormed(history)
    requires forall h, input :: WellFormed(h) ==> WellFormed(turn(h, input).history)
    ensures WellFormed(RunFrom(history, inputs, from, turn).history)
    decreases |inputs| - from
  {
    if from < |inputs| {
      var r := turn(history, inputs[from]);
      if !r.effect.Goodbye? {
        RunFromKeepsWellFormed(r.history, inputs, from + 1, turn);
      }
    }
  }

  /**
    * The loop stops at the first quit command and nowhere else: it quits exactly when
    * some input is a quit command, the last input it read is that command, and none
    * read before it was one.
    */
  lemma RunStopsAtFirstQuit(history: seq<Message>, inputs: seq<Input>, model: string,
                            files: map<string, string>, llm: Llm)
    ensures var s := Run(history, inputs, model, files, llm);
      s.quit <==> s.consumed > 0 && IsQuit(inputs[s.consumed - 1])
    ensures var s := Run(history, inputs, model, files, llm);
      forall i {:trigger IsQuit(inputs[i])} :: 0 <= i < s.consumed - 1 ==> !IsQuit(inputs[i])
    ensures Run(history, inputs, model, files, llm).quit <==>
      exists i {:trigger IsQuit(inputs[i])} :: 0 <= i < |inputs| && IsQuit(inputs[i])
  {
    var turn := TurnOf(model, files, llm);
    var s := RunFrom(history, inputs, 0, turn);
    RunFromQuitsOnLastRead(history, inputs, 0, turn, IsQuit);
    RunFromReadsNoEarlierQuit(history, inputs, 0, turn, IsQuit);
    FirstQuitIsSomeQuit(inputs, s.consumed, s.quit, IsQuit);
  }

  /** Reading up to the first quit command, or to the end when there is none, quits exactly when some input is one. */
  lemma FirstQuitIsSomeQuit(inputs: seq<Input>, consumed: nat, quit: bool, quits: Input -> bool)
    requires consumed <= |inputs| && (!quit ==> consumed == |inputs|)
    requires quit <==> consumed > 0 && quits(inputs[consumed - 1])
    requires forall i {:trigger quits(inputs[i])} :: 0 <= i < consumed - 1 ==> !quits(inputs[i])
    ensures quit <==> exists i {:trigger quits(inputs[i])} :: 0 <= i < |inputs| && quits(inputs[i])
  {
    if !quit {
      forall i | 0 <= i < |inputs|
        ensures !quits(inputs[i])
      {
        assert i < consumed - 1 || i == consumed - 1;
      }
    }
  }

  /** The loop quits exactly when the last input it read is a quit command. */
  lemma {:induction false} RunFromQuitsOnLastRead(history: seq<Message>, inputs: seq<Input>, from: nat, turn: Turn,
                                                  quits: Input -> bool)
    requires from <= |inputs|
    requires forall h, input :: turn(h, input).effect.Goodbye? <==> quits(input)
    ensures var s := RunFrom(history, inputs, from, turn);
      s.quit <==> s.consumed > 0 && quits(inputs[from + s.consumed - 1])
    decreases |inputs| - from
  {
    if from < |inputs| {
      var r := turn(history, inputs[from]);
      if !r.effect.Goodbye? {
        RunFromQuitsOnLastRead(r.history, inputs, from + 1, turn, quits);
      }
    }
  }

  /** No input the loop read before its last one is a quit command. */
  lemma {:induction false} RunFromReadsNoEarlierQuit(history: seq<Message>, inputs: seq<Input>, from: nat, turn: Turn,
                                                     quits: Input -> bool)
    requires from <= |inputs|
    requires forall h, input :: turn(h, input).effect.Goodbye? <==> quits(input)
    ensures var s := RunFrom(history, inputs, from, turn);
      forall i {:trigger quits(inputs[i])} :: from <= i < from + s.consumed - 1 ==> !quits(inputs[i])
    decreases |inputs| - from
  {
    if from < |inputs| {
      var r := turn(history, inputs[from]);
      if !r.effect.Goodbye? {
        RunFromReadsNoEarlierQuit(r.history, inputs, from + 1, turn, quits);
      }
    }
  }

  /** Nothing typed after a quit command is read. */
  lemma InputsAfterQuitAreIgnored(history: seq<Message>, inputs: seq<Input>, more: seq<Input>,
                                  model: string, files: map<string, string>, llm: Llm)
    requires Run(history, inputs, model, files, llm).quit
    ensures Run(history, inputs + more, model, files, llm) == Run(history, inputs, model, files, llm)
  {
    RunFromIgnoresAfterQuit(history, inputs, more, 0, TurnOf(model, files, llm));
  }

  lemma {:induction false} RunFromIgnoresAfterQuit(history: seq<Message>, inputs: seq<Input>, more: seq<Input>, from: nat,
                                                   turn: Turn)
    requires from <= |inputs| && RunFrom(history, inputs, from, turn).quit
    ensures RunFrom(history, inputs + more, from, turn) == RunFrom(history, inputs, from, turn)
    decreases |inputs| - from
  {
    assert (inputs + more)[from] == inputs[from];
    var r := turn(history, inputs[from]);
    if !r.effect.Goodbye? {
      RunFromIgnoresAfterQuit(r.history, inputs, more, from + 1, turn);
    }
  }
}

=== FILE: results.dfy ===
/** Optional values and success-or-error values shared by every module. */
module Results {

  /** A value that may be absent: Python's `None` or a missing attribute. */
  datatype Option<+T> = None | Some(value: T)

  /** The outcome of a Python call that either returns `value` or raises `error`. */
  datatype Result<+T, +E> = Ok(value: T) | Err(error: E)
}

=== FILE: text.dfy ===
/** The few Python `str` operations the modelled code relies on, on `seq<char>`. */
module Text {
  import opened Results

  /** Python's `str.isspace()` for one character. */
  predicate IsSpace(c: char) {
    || c == ' '
    || ('\U{9}' <= c <= '\U{D}')
    || ('\U{1C}' <= c <= '\U{1F}')
    || c == '\U{85}' || c == '\U{A0}' || c == '\U{1680}'
    || ('\U{2000}' <= c <= '\U{200A}')
    || c == '\U{2028}' || c == '\U{2029}' || c == '\U{202F}' || c == '\U{205F}' || c == '\U{3000}'
  }

  /** Python truthiness of an optional string: present and non-empty. */
  predicate Truthy(o: Option<string>) {
    o.Some? && o.value != ""
  }

  predicate StartsWith(s: string, prefix: string) {
    |prefix| <= |s| && s[..|prefix|] == prefix
  }

  predicate EndsWith(s: string, suffix: string) {
    |suffix| <= |s| && s[|s| - |suffix|..] == suffix
  }

  /** `pat` occurs in `s` starting at index `i`. */
  predicate OccursAt(s: string, pat: string, i: int) {
    0 <= i && i + |pat| <= |s| && s[i..i + |pat|] == pat
  }

  /** A slice that begins at an occurrence of `pat` starts with `pat`. */
  lemma SliceAtOccurrence(s: string, pat: string, i: nat, j: nat)
    requires OccursAt(s, pat, i) && i + |pat| <= j <= |s|
    ensures StartsWith(s[i..j], pat)
  {
    assert s[i..j][..|pat|] == s[i..i + |pat|];
  }

  /** Python's `s.find(pat, from)`; `None` stands for Python's -1. */
  function FindFrom(s: string, pat: string, from: nat): (r: Option<nat>)
    ensures r.Some? ==> from <= r.value && OccursAt(s, pat, r.value)
    ensures forall j :: from <= j && (r.None? || j < r.value) ==> !OccursAt(s, pat, j)
    decreases |s| - from
  {
    if from + |pat| > |s| then None
    else if s[from..from + |pat|] == pat then Some(from)
    else FindFrom(s, pat, from + 1)
  }

  /** Python's `s.find(pat)`: the first occurrence. */
  function Find(s: string, pat: string): (r: Option<nat>)
    ensures r.Some? ==> OccursAt(s, pat, r.value)
    ensures forall j :: (r.None? || j < r.value) ==> !OccursAt(s, pat, j)
  {
    FindFrom(s, pat, 0)
  }

  /** The last occurrence of `pat` in `s` at an index no greater than `i`. */
  function RFindAtOrBelow(s: string, pat: string, i: int): (r: Option<nat>)
    ensures r.Some? ==> r.value <= i && OccursAt(s, pat, r.value)
    ensures forall j :: j <= i && (r.None? || r.value < j) ==> !OccursAt(s, pat, j)
    decreases if i < 0 then 0 else i + 1
  {
    if i < 0 then None
    else if OccursAt(s, pat, i) then Some(i)
    else RFindAtOrBelow(s, pat, i - 1)
  }

  /** Python's `s.rfind(pat)`: the last occurrence. */
  function RFind(s: string, pat: string): (r: Option<nat>)
    ensures r.Some? ==> OccursAt(s, pat, r.value)
    ensures forall j :: (r.None? || r.value < j) ==> !OccursAt(s, pat, j)
  {
    RFindAtOrBelow(s, pat, |s| - |pat|)
  }

  /** Python's `s.split(sep)` for a one-character separator: every occurrence cuts, empty pieces are kept. */
  function Split(s: string, sep: char): (r: seq<string>)
    ensures |r| >= 1
  {
    if |s| == 0 then [""]
    else if s[0] == sep then [""] + Split(s[1..], sep)
    else
      var t := Split(s[1..], sep);
      [[s[0]] + t[0]] + t[1..]
  }

  /** The first piece of a split is the text before the first separator. */
  lemma {:induction false} SplitFirstPiece(s: string, sep: char)
    ensures var first := Split(s, sep)[0];
      |first| <= |s| && first == s[..|first|] && (|first| < |s| ==> s[|first|] == sep)
    decreases |s|
  {
    if |s| > 0 {
      SplitFirstPiece(s[1..], sep);
      SplitCons(s[0], s[1..], sep);
      assert s == [s[0]] + s[1..];
    }
  }

  /** No piece of a split holds the separator. */
  lemma {:induction false} SplitPiecesLackSeparator(s: string, sep: char)
    ensures forall i :: 0 <= i < |Split(s, sep)| ==> sep !in Split(s, sep)[i]
    decreases |s|
  {
    if |s| > 0 {
      SplitPiecesLackSeparator(s[1..], sep);
      assert s == [s[0]] + s[1..];
      SplitCons(s[0], s[1..], sep);
      var t := Split(s[1..], sep);
      if s[0] != sep {
        assert sep !in t[0];
        assert sep !in [s[0]] + t[0];
      }
    }
  }

  /** A split yields a single piece exactly when the separator does not occur. */
  lemma {:induction false} SplitIsSingleIffNoSeparator(s: string, sep: char)
    ensures |Split(s, sep)| == 1 <==> sep !in s
    decreases |s|
  {
    if |s| > 0 {
      SplitIsSingleIffNoSeparator(s[1..], sep);
      assert s == [s[0]] + s[1..];
      SplitCons(s[0], s[1..], sep);
    }
  }

  /** Python's `sep.join(lines)`. */
  function Join(lines: seq<string>, sep: char): string {
    if |lines| == 0 then ""
    else if |lines| == 1 then lines[0]
    else lines[0] + [sep] + Join(lines[1..], sep)
  }

  /** A join is empty for no pieces; otherwise it starts with the first piece and ends with the last,
      and with two or more pieces the separator follows the first one. */
  lemma JoinShape(lines: seq<string>, sep: char)
    ensures |lines| == 0 ==> Join(lines, sep) == ""
    ensures |lines| >= 1 ==> StartsWith(Join(lines, sep), lines[0]) && EndsWith(Join(lines, sep), lines[|lines| - 1])
    ensures |lines| >= 2 ==> |Join(lines, sep)| > |lines[0]| && Join(lines, sep)[|lines[0]|] == sep
  {
    var r := Join(lines, sep);
    if |lines| >= 2 {
      var tail := Join(lines[1..], sep);
      assert r == lines[0] + [sep] + tail;
      assert r[..|lines[0]|] == lines[0];
      JoinSnoc(lines, sep);
      var init := Join(lines[..|lines| - 1], sep);
      assert r == init + [sep] + lines[|lines| - 1];
      assert r[|r| - |lines[|lines| - 1]|..] == lines[|lines| - 1];
    }
  }

  /** Joining the pieces of a split gives back the original string. */
  lemma {:induction false} JoinSplit(s: string, sep: char)
    ensures Join(Split(s, sep), sep) == s
    decreases |s|
  {
    if |s| > 0 {
      var t := Split(s[1..], sep);
      JoinSplit(s[1..], sep);
      SplitCons(s[0], s[1..], sep);
      assert s == [s[0]] + s[1..];
      if s[0] == sep {
        JoinCons("", t, sep);
      } else {
        JoinConsHead(s[0], t, sep);
      }
    }
  }

  /** Splitting a string one character at a time, as the definition of `Split` does. */
  lemma SplitCons(c: char, rest: string, sep: char)
    ensures var t := Split(rest, sep);
      Split([c] + rest, sep) == if c == sep then [""] + t else [[c] + t[0]] + t[1..]
  {
    assert ([c] + rest)[1..] == rest;
  }

  /** Joining a piece in front of a non-empty list puts the separator between them. */
  lemma JoinCons(x: string, t: seq<string>, sep: char)
    requires |t| >= 1
    ensures Join([x] + t, sep) == x + [sep] + Join(t, sep)
  {
    assert ([x] + t)[1..] == t;
  }

  /** Prefixing the first piece with a character prefixes the join with it. */
  lemma JoinConsHead(c: char, t: seq<string>, sep: char)
    requires |t| >= 1
    ensures Join([[c] + t[0]] + t[1..], sep) == [c] + Join(t, sep)
  {
    if |t| >= 2 {
      JoinCons([c] + t[0], t[1..], sep);
      assert t == [t[0]] + t[1..];
      JoinCons(t[0], t[1..], sep);
    }
  }

  /** Splitting at a separator occurrence splits both sides independently. */
  lemma {:induction false} SplitConcat(a: string, b: string, sep: char)
    ensures Split(a + [sep] + b, sep) == Split(a, sep) + Split(b, sep)
    decreases |a|
  {
    if |a| == 0 {
      assert a + [sep] + b == [sep] + b;
      SplitCons(sep, b, sep);
    } else {
      SplitConcat(a[1..], b, sep);
      assert a + [sep] + b == [a[0]] + (a[1..] + [sep] + b);
      assert a == [a[0]] + a[1..];
      SplitConcatStep(a[0], a[1..] + [sep] + b, a[1..], Split(b, sep), sep);
    }
  }

  /** The inductive step of `SplitConcat`: putting a character in front of both strings. */
  lemma SplitConcatStep(c: char, rest: string, a: string, y: seq<string>, sep: char)
    requires Split(rest, sep) == Split(a, sep) + y
    ensures Split([c] + rest, sep) == Split([c] + a, sep) + y
  {
    SplitCons(c, rest, sep);
    SplitCons(c, a, sep);
    var x := Split(a, sep);
    if c == sep {
      AppendAssoc([""], x, y);
    } else {
      HeadOfAppend(x, y);
      AppendAssoc([[c] + x[0]], x[1..], y);
    }
  }

  lemma AppendAssoc<T>(a: seq<T>, b: seq<T>, c: seq<T>)
    ensures a + (b + c) == (a + b) + c
  {
  }

  lemma HeadOfAppend<T>(x: seq<T>, y: seq<T>)
    requires |x| >= 1
    ensures (x + y)[0] == x[0] && (x + y)[1..] == x[1..] + y
  {
  }

  /** Splitting a join of separator-free pieces gives back the pieces. */
  lemma {:induction false} SplitJoin(lines: seq<string>, sep: char)
    requires |lines| >= 1
    requires forall i :: 0 <= i < |lines| ==> sep !in lines[i]
    ensures Split(Join(lines, sep), sep) == lines
    decreases |lines|
  {
    if |lines| == 1 {
      SplitNoSeparator(lines[0], sep);
    } else {
      SplitJoin(lines[1..], sep);
      SplitNoSeparator(lines[0], sep);
      SplitConcat(lines[0], Join(lines[1..], sep), sep);
      assert lines == [lines[0]] + lines[1..];
    }
  }

  /** A string without the separator splits into itself. */
  lemma SplitNoSeparator(s: string, sep: char)
    requires sep !in s
    ensures Split(s, sep) == [s]
  {
    var r := Split(s, sep);
    SplitIsSingleIffNoSeparator(s, sep);
    assert r[0] == s;
    assert r == [r[0]];
  }

  /** The join of a non-empty list is the join of all but the last piece, the separator, and the last piece. */
  lemma {:induction false} JoinSnoc(lines: seq<string>, sep: char)
    requires |lines| >= 2
    ensures Join(lines, sep) == Join(lines[..|lines| - 1], sep) + [sep] + lines[|lines| - 1]
    decreases |lines|
  {
    if |lines| == 2 {
      assert lines[..1] == [lines[0]];
    } else {
      JoinSnoc(lines[1..], sep);
      assert lines[1..][..|lines| - 2] == lines[..|lines| - 1][1..];
    }
  }

  /** The index just past the run of whitespace that starts at `i`. */
  function SkipSpace(s: string, i: nat): (j: nat)
    requires i <= |s|
    ensures i <= j <= |s| && AllSpace(s, i, j)
    ensures j == |s| || !IsSpace(s[j])
    decreases |s| - i
  {
    if i < |s| && IsSpace(s[i]) then SkipSpace(s, i + 1) else i
  }

  /** The index just before the run of whitespace that ends at `j`. */
  function SkipSpaceBack(s: string, j: nat): (i: nat)
    requires j <= |s|
    ensures i <= j && AllSpace(s, i, j)
    ensures i == 0 || !IsSpace(s[i - 1])
  {
    if j > 0 && IsSpace(s[j - 1]) then SkipSpaceBack(s, j - 1) else j
  }

  /** The index just past the run of non-whitespace that starts at `i`. */
  function SkipWord(s: string, i: nat): (j: nat)
    requires i <= |s|
    ensures i <= j <= |s|
    ensures forall k :: i <= k < j ==> !IsSpace(s[k])
    ensures j == |s| || IsSpace(s[j])
    decreases |s| - i
  {
    if i < |s| && !IsSpace(s[i]) then SkipWord(s, i + 1) else i
  }

  /** Python's `s.lstrip()`. */
  function LStrip(s: string): (r: string)
    ensures |r| <= |s| && r == s[|s| - |r|..]
    ensures forall i :: 0 <= i < |s| - |r| ==> IsSpace(s[i])
    ensures r == "" || !IsSpace(r[0])
  {
    s[SkipSpace(s, 0)..]
  }

  /** A string that does not start with whitespace is its own `lstrip()`. */
  lemma LStripKeepsUnpadded(s: string)
    requires s != "" && !IsSpace(s[0])
    ensures LStrip(s) == s
  {
  }

  /** Python's `s.rstrip()`. */
  function RStrip(s: string): (r: string)
    ensures |r| <= |s| && r == s[..|r|]
    ensures forall i :: |r| <= i < |s| ==> IsSpace(s[i])
    ensures r == "" || !IsSpace(r[|r| - 1])
  {
    s[..SkipSpaceBack(s, |s|)]
  }

  /** Python's `s.strip()`: the infix left after removing leading and trailing whitespace. */
  function Strip(s: string): (r: string)
    ensures r == "" <==> forall i :: 0 <= i < |s| ==> IsSpace(s[i])
    ensures r != "" ==> !IsSpace(r[0]) && !IsSpace(r[|r| - 1])
  {
    var t := RStrip(s);
    var r := LStrip(t);
    StripFacts(s, t, r);
    r
  }

  /** `strip()` removes whitespace from the two ends only: the result is an infix of the input
      with nothing but whitespace before and after it. */
  lemma StripIsInfix(s: string)
    ensures exists i, j :: 0 <= i <= j <= |s| && Strip(s) == s[i..j] && AllSpace(s, 0, i) && AllSpace(s, j, |s|)
  {
    var t := RStrip(s);
    var r := LStrip(t);
    var i, j := |t| - |r|, |t|;
    assert r == t[i..];
    assert t[i..] == s[i..j];
    assert AllSpace(s, 0, i) by {
      forall k | 0 <= k < i
        ensures IsSpace(s[k])
      {
        assert s[k] == t[k];
      }
    }
  }

  lemma StripFacts(s: string, t: string, r: string)
    requires t == RStrip(s) && r == LStrip(t)
    ensures r == "" <==> forall i :: 0 <= i < |s| ==> IsSpace(s[i])
    ensures r != "" ==> !IsSpace(r[|r| - 1])
  {
    if r == "" {
      assert t == "";
    } else {
      assert r[|r| - 1] == t[|t| - 1];
      assert t != "";
      assert s[|t| - 1] == t[|t| - 1];
      assert !IsSpace(s[|t| - 1]);
    }
  }

  /** The longest prefix of `s` without whitespace. */
  function Word(s: string): (w: string)
    ensures |w| <= |s| && w == s[..|w|]
    ensures forall i :: 0 <= i < |w| ==> !IsSpace(w[i])
    ensures |w| < |s| ==> IsSpace(s[|w|])
  {
    s[..SkipWord(s, 0)]
  }

  /** Python's `s.split(maxsplit=1)`: the first whitespace-delimited word and,
      if anything but whitespace follows it, the rest after the whitespace run. */
  function SplitFirstWord(s: string): (parts: seq<string>)
    ensures |parts| <= 2
    ensures parts == [] <==> forall i :: 0 <= i < |s| ==> IsSpace(s[i])
    ensures forall k :: 0 <= k < |parts| ==> parts[k] != ""
    ensures |parts| >= 1 ==> forall i :: 0 <= i < |parts[0]| ==> !IsSpace(parts[0][i])
    ensures |parts| == 2 ==> !IsSpace(parts[1][0])
  {
    var t := LStrip(s);
    LStripOfBlank(s, t);
    if t == "" then []
    else
      var w := Word(t);
      var rest := LStrip(t[|w|..]);
      if rest == "" then [w] else [w, rest]
  }

  /** `lstrip()` leaves nothing exactly when the string is all whitespace, and otherwise a first word. */
  lemma LStripOfBlank(s: string, t: string)
    requires t == LStrip(s)
    ensures t == "" <==> forall i :: 0 <= i < |s| ==> IsSpace(s[i])
    ensures t != "" ==> Word(t) != ""
  {
    if t != "" {
      assert s[|s| - |t|] == t[0];
    }
  }

  /** The characters of `s` in `[lo, hi)` are all whitespace. */
  predicate AllSpace(s: string, lo: int, hi: int)
    requires 0 <= lo <= hi <= |s|
  {
    forall i :: lo <= i < hi ==> IsSpace(s[i])
  }

  /** The pieces of `s.split(maxsplit=1)` are separated, in the left-stripped string,
      by whitespace only: nothing of the input is lost except whitespace. */
  lemma SplitFirstWordCovers(s: string, t: string, parts: seq<string>)
    requires t == LStrip(s) && parts == SplitFirstWord(s)
    ensures |parts| >= 1 ==> StartsWith(t, parts[0])
    ensures |parts| == 1 ==> AllSpace(t, |parts[0]|, |t|)
    ensures |parts| == 2 ==> EndsWith(t, parts[1]) && |parts[0]| < |t| - |parts[1]|
    ensures |parts| == 2 ==> AllSpace(t, |parts[0]|, |t| - |parts[1]|)
  {
    if t != "" {
      var w := Word(t);
      var u := t[|w|..];
      var rest := LStrip(u);
      assert parts == (if rest == "" then [w] else [w, rest]);
      WordGapIsSpace(t, w, u, rest);
    }
  }

  lemma WordGapIsSpace(t: string, w: string, u: string, rest: string)
    requires t != "" && w == Word(t) && u == t[|w|..] && rest == LStrip(u)
    ensures AllSpace(t, |w|, |t| - |rest|)
    ensures rest != "" ==> |w| < |t| - |rest| && EndsWith(t, rest)
  {
    assert AllSpace(u, 0, |u| - |rest|);
    SpacePrefixCarries(t, |w|, u, |u| - |rest|);
    if rest != "" {
      assert u[0] == t[|w|];
      assert t[|t| - |rest|..] == u[|u| - |rest|..];
    }
  }

  /** Whitespace at the start of a suffix of `t` is whitespace of `t`. */
  lemma SpacePrefixCarries(t: string, lo: nat, u: string, m: nat)
    requires lo <= |t| && u == t[lo..] && m <= |u| && AllSpace(u, 0, m)
    ensures AllSpace(t, lo, lo + m)
  {
    forall i | lo <= i < lo + m
      ensures IsSpace(t[i])
    {
      assert t[i] == u[i - lo];
    }
  }

  function LowerChar(c: char): char {
    if 'A' <= c <= 'Z' then (c as int + 32) as char else c
  }

  /** Python's `s.lower()`, restricted to ASCII letters. */
  function Lower(s: string): (r: string)
    ensures |r| == |s|
    ensures forall i :: 0 <= i < |s| ==> r[i] == LowerChar(s[i])
  {
    seq(|s|, i requires 0 <= i < |s| => LowerChar(s[i]))
  }

  /** The upper-case partner of an ASCII lower-case letter; any other character is its own. */
  function UpperChar(c: char): char {
    if 'a' <= c <= 'z' then (c as int - 32) as char else c
  }

  /** Lower-casing matches a text without capitals exactly when the input is that text
      with any of its letters written in capitals: how a command word is recognised
      whatever its letter case. */
  lemma LowerMatchesIgnoringCase(w: string, c: string)
    requires forall i :: 0 <= i < |c| ==> !('A' <= c[i] <= 'Z')
    ensures Lower(w) == c <==>
      |w| == |c| && forall i :: 0 <= i < |c| ==> w[i] == c[i] || w[i] == UpperChar(c[i])
  {
    if |w| == |c| && (forall i :: 0 <= i < |c| ==> w[i] == c[i] || w[i] == UpperChar(c[i])) {
      assert forall i :: 0 <= i < |c| ==> Lower(w)[i] == c[i];
    }
  }
}
